=== FILE: README.md ===
# Restaurant booking store: a Dafny model

This project models the core of a small restaurant-booking application. The
application keeps users, restaurant tables and bookings in PostgreSQL. Its
central rule: the guests booked on one table at one date and time (a *slot*)
must not exceed the table's capacity. `backend.py` enforces this with a
read-check-write sequence. `_check_table_capacity` sums the guests already in
the slot, optionally leaving out one booking, and raises
`BookingCapacityError` when the request would not fit. `create_booking` and
`update_booking` call it before they write.

The model has nine modules:

- `Wrappers` (wrappers.dfy): the `Option` and `Result` types. `None` stands
  for Python's `None` or a `ValueError`; `Err` stands for a raised
  exception.

- `Schema` (schema.dfy): the three relations as immutable Dafny values and
  the constraints of their DDL. The `Db` value holds the user ids, the table
  rows, the booking rows and the next values of the two `SERIAL` sequences.
  `Valid` states the DDL: positive capacity, unique table number, positive
  guest count, both foreign keys, and ids below their sequence's next value.
- `Slots` (slots.dfy): `Occupancy`, the `COALESCE(SUM(guests_count), 0)`
  aggregate over a slot with an optional excluded booking. It is computed by
  recursion on the smallest booking id. Its lemmas show that any row can be
  taken out first, and how inserts, replacements, exclusions and deletions
  change the sum. This module also states the capacity invariant,
  `WithinCapacity`.
- `Backend` (backend.dfy): the write operations as pure functions. They are
  the capacity check, `create_booking`, `update_booking`, `delete_booking`,
  `create_table`, `update_table`, `delete_table` and `delete_user`. Each one
  returns either a new database or an error. An error leaves the database
  unchanged, because the transaction is rolled back.
- `Invariant` (invariant.dfy): each operation keeps `Valid`. Every operation
  except `update_table` also keeps `WithinCapacity`. `update_table` is shown
  to break `WithinCapacity`, in general and on a concrete database. This
  module also has the self-exclusion facts of `update_booking`.
- `Runs` (runs.dfy): serial sequences of calls. Such a sequence keeps `Valid`,
  keeps `WithinCapacity` when it contains no `update_table`, and never
  reuses an id.
- `Scenarios` (scenarios.dfy): concrete runs on a restaurant with one
  four-seat table.
- `Text` (text.dfy): the Python built-ins the form helpers use. They are
  `str.strip`, `str.split` on one character, `int()` on a string, `str(n)`
  and zero-padded formatting.
- `Forms` (forms.dfy): the helpers `_safe_int`, `_date_ru_to_db` and
  `_date_db_to_ru` from app.py, with their round-trip properties.

Behaviour of the code worth noting, which the model follows:

- A missing table in the capacity check raises the same
  `BookingCapacityError` as an overflow, not a separate "not found" error.
  The model has one error constructor, `CapacityRefused`, whose reason is
  either `NoSuchTable` or `Exceeded(occupied, capacity, requested)`.
- `update_booking` on an id with no row returns `False`; it does not raise.
- The code does not retry on serialization conflicts and does not lock the
  slot, so the model has no retry.
- `update_table` never re-checks bookings against a lowered capacity. The
  model proves that this can leave a slot over capacity
  (`Invariant.UpdateTableMayBreakCapacity`).

Constraint violations are reported in the order PostgreSQL checks them.
The Python capacity check runs first, then the `CHECK` constraint, then
`UNIQUE`, then the `REFERENCES` foreign keys. Dates and times in the store
are opaque, already-normalised slot keys: the database's `DATE` and `TIME`
types make `10:00` and `10:00:00` the same value.

## Model

| member | source | states |
|---|---|---|
| Schema.Valid | models/booking.py:26-33 | The DDL of both relations: `Schema.TablesValid` and `Schema.NumbersUnique` for the tables, positive guest counts and both foreign keys for the bookings, and stored ids below their sequence's next value. |
| Schema.TablesValid | models/tables.py:22-24 | `CHECK (capacity > 0)` on every table, and every table id below the table sequence's next value. |
| Schema.NumbersUnique | models/tables.py:23 | `table_number UNIQUE`: two table ids with the same number are the same id. |
| Backend.CheckCapacity | backend.py:191-223 | A missing table is refused as `NoSuchTable` exactly when the id has no row. Otherwise the check passes iff the slot's occupancy, leaving out the excluded booking, plus the request fits the capacity. An overflow reports that occupancy, the capacity and the request. |
| Backend.CreateBooking | backend.py:226-244 | Succeeds iff the capacity check passes, the guest count is positive and the user exists. A failed check is surfaced as that capacity error. After a passing check, a non-positive count is refused as a CHECK violation, and only then a missing user as a foreign-key violation. On success exactly one booking with the given fields is added under the booking sequence's current value, which is fresh in a valid database, and the sequence moves on by one. Users, tables and the table sequence do not change. |
| Backend.UpdateBooking | backend.py:272-320 | An empty patch or a missing row gives `false` and no change. Otherwise it succeeds iff the check on the effective slot and guest count passes with the booking itself excluded, the count is positive and the user exists. Every success answers `true` and replaces only that row, by the patched row. A failed check is surfaced as that capacity error; after a passing check, a non-positive effective count is a CHECK violation, and only then a missing user a foreign-key violation. |
| Backend.BookingPatch.ApplyTo | backend.py:311-314 | Definition of the effective row used by the contract of `Backend.UpdateBooking` and the capacity check: each column named in the call takes the new value and every other column keeps the stored one. |
| Backend.DeleteBooking | backend.py:323-329 | Answers whether the id existed. Removes exactly that row and changes nothing else. |
| Backend.DeleteTable | backend.py:175-181 | Answers whether the table existed. Removes it and, by the cascade, exactly the bookings on it. Users and both sequences do not change. |
| Backend.DeleteUser | backend.py:102-108 | Answers whether the user existed. Removes the user and, by the cascade, exactly that user's bookings. Tables and both sequences do not change. |
| Backend.Cascade | models/booking.py:28-29 | `ON DELETE CASCADE`: a booking survives iff it does not reference the deleted row, and survivors are unchanged. |
| Backend.UpdateTable | backend.py:148-172 | No named column or a missing id gives `false` and no change. The update is refused with a CHECK violation iff the new capacity is not positive, and with a UNIQUE violation iff another table has the new number. Otherwise it succeeds and answers `true`; only that table row changes, and bookings, users and both sequences are untouched. |
| Backend.PatchTable | backend.py:154-161 | Definition of the table row used by the contract of `Backend.UpdateTable`: a given number or capacity replaces the stored one, and an omitted one is kept. |
| Backend.CreateTable | backend.py:114-124 | Refused with CHECK iff the capacity is not positive, with UNIQUE iff the number is taken, and succeeds otherwise. On success one table is added under the table sequence's current value, fresh in a valid database, the sequence moves on by one, and nothing else changes. |
| Slots.Occupancy | backend.py:206-218 | The `COALESCE(SUM(guests_count), 0)` query: the sum of the guests of the rows in the slot, leaving out the excluded id, and zero when there are none. Its properties are the lemmas below. |
| Slots.OccupancyZero | backend.py:206-218 | With positive guest counts the sum is never negative, and it is zero exactly when no row outside the exclusion is in the slot. |
| Slots.WithinCapacity | backend.py:219-223 | The capacity invariant: every slot of every table holds at most that table's capacity. |
| Slots.OccupancyRemove | backend.py:206-218 | The slot sum does not depend on row order: any booking can be taken out with exactly its share. |
| Slots.OccupancyExcluding | backend.py:206-211 | Excluding a booking that exists subtracts exactly its own guests from its own slot and nothing from other slots. It equals the sum over the table without that row. |
| Slots.OccupancyExcludeAbsent | backend.py:206-211 | Excluding an id that has no row gives the same sum as no exclusion. |
| Slots.EveryBookingCounts | backend.py:212-217 | Without an exclusion, a booking's slot holds exactly its guests plus the guests of the other rows, so each booking is counted in full. |
| Slots.OccupancySubTable | models/booking.py:28-29 | Dropping rows (delete or cascade) never raises a slot's occupancy. |
| Slots.OccupancyEmptySlot | backend.py:208 | A slot with no booking has occupancy zero (`COALESCE(..., 0)`). |
| Invariant.CreateBookingPreserves | backend.py:237-244 | From a valid database within capacity, `create_booking` (successful or not) leaves one that is valid and within capacity. |
| Invariant.UpdateBookingPreserves | backend.py:311-320 | From a valid database within capacity, `update_booking` leaves one that is valid and within capacity. |
| Invariant.DeleteBookingPreserves | backend.py:323-329 | `delete_booking` keeps validity and the capacity invariant. |
| Invariant.DeleteBookingFrees | backend.py:323-329 | After a delete, the deleted booking's slot holds exactly its guests fewer, and every other slot is unchanged. |
| Invariant.DeleteTablePreserves | backend.py:175-181 | `delete_table` with its cascade keeps validity (no dangling booking) and the capacity invariant. |
| Invariant.DeleteUserPreserves | backend.py:102-108 | `delete_user` with its cascade keeps validity and the capacity invariant. |
| Invariant.CreateTablePreserves | backend.py:114-124 | `create_table` keeps validity and the capacity invariant, because no booking references a new table. |
| Invariant.CreateBookingKeepsValid | models/booking.py:27-32 | `create_booking` keeps every DDL constraint, whatever the occupancy. |
| Invariant.UpdateBookingKeepsValid | models/booking.py:28-32 | `update_booking` keeps every DDL constraint, whatever the occupancy. |
| Invariant.UpdateTableKeepsValid | models/tables.py:22-24 | `update_table` keeps positive capacities and unique table numbers. |
| Invariant.UpdateTableKeepsCapacityIfRoomy | backend.py:148-172 | `update_table` keeps the capacity invariant when the new capacity still covers every slot of that table. |
| Invariant.UpdateTableMayBreakCapacity | backend.py:148-172 | Lowering a capacity below a slot's occupancy is accepted and leaves the database over capacity. |
| Invariant.UpdateTableBreaksSmallRestaurant | backend.py:148-172 | A concrete valid database within capacity that `update_table` overbooks. |
| Invariant.UpdateBookingRepeat | backend.py:281-320 | Repeating a successful `update_booking` with the same arguments passes the check again, answers `true` and leaves the database as the first call left it. |
| Invariant.UpdateGuestsSelfExcluded | backend.py:311-315 | When only the guest count changes, the check passes iff the slot's other guests plus the new count fit. The booking's own old count is not counted twice. |
| Invariant.LoweringGuestsAlwaysPasses | backend.py:311-320 | Lowering a booking's guests always succeeds, even in a full slot, and changes only that count. |
| Invariant.CheckWithoutExclusionDoubleCounts | backend.py:206-217 | In a full slot, the check without exclusion refuses a booking's own guest count, while the check with that booking excluded passes. |
| Runs.StepPreserves | backend.py:148-329 | Any single call keeps validity. Any call but `update_table` keeps the capacity invariant, and neither sequence goes back. |
| Runs.RunKeepsValid | models/booking.py:27-32 | Any serial sequence of calls keeps every DDL constraint. |
| Runs.RunKeepsCapacity | backend.py:219-223 | Any serial sequence of calls without `update_table` keeps every slot within its table's capacity. |
| Runs.RunNeverReusesIds | models/booking.py:27 | Both sequences only move forward over any serial run of calls. |
| Runs.LaterBookingGetsNewId | models/booking.py:27 | A booking inserted after any run gets an id at or above the sequence value before the run: no booking that existed before the run, and none left after it, has that id. |
| Runs.LaterTableGetsNewId | models/tables.py:22 | A table inserted after any run gets an id at or above the sequence value before the run, held by no table before or after it. |
| Scenarios.SecondBookingOverflows | backend.py:219-223 | With 3 of 4 seats taken, a request for 2 is refused as `Exceeded(3, 4, 2)`. |
| Scenarios.LastSeatIsBookable | backend.py:237-244 | With 3 of 4 seats taken, a request for 1 succeeds under the next id. |
| Scenarios.GrowingToCapacityPasses | backend.py:311-320 | The booking for 3 can be raised to 4 on a 4-seat table, because its own guests are excluded. |
| Scenarios.DeleteFreesTheSlot | backend.py:323-329 | After the booking for 3 is deleted, a new booking for 4 fits. |
| Scenarios.MissingTableRefused | backend.py:201-203 | A booking on a table id with no row is refused as `NoSuchTable`, the same error class as an overflow. |
| Text.Strip | app.py:26 | `str.strip()`: the result is a slice of the input with only whitespace before and after it. It is empty iff the input is blank, and otherwise neither starts nor ends with Python whitespace. |
| Text.Split | app.py:29 | `str.split('-')`: at least one part, no part contains the separator, and joining the parts gives back the input. |
| Text.SplitJoin | app.py:29 | Split inverts join whenever no part contains the separator. |
| Text.ParseInt | app.py:33 | `int()`: succeeds iff the stripped text is an optional sign followed by digits. Blank text is rejected, plain digits read as their base-10 value, and a leading `-` negates that value while `+` keeps it. |
| Text.ParseShowInt | app.py:12 | `int()` reads back `str(n)` for every integer `n`. |
| Text.ZeroPad | app.py:35 | `{n:0Wd}`: only digits, with value `n`, at least `W` long, and exactly `W` long when `n` has at most `W` digits. |
| Forms.SafeInt | app.py:10-14 | Blank input gives the default. Any other input gives exactly what `int()` gives: `None` where it fails, not the default, and the value where it succeeds. |
| Forms.SafeIntShowInt | app.py:10-14 | Every integer written in Python's notation is read back, whatever the default. |
| Forms.ReadDmy | app.py:26-33 | Yields fields iff the stripped input splits on `-` into exactly three parts that `int()` all accepts, and the fields are those three integers in order. Blank input yields nothing. |
| Forms.DateRuToDb | app.py:24-38 | Accepts exactly the entries whose three fields are 1-31, 1-12 and 1900-2100. The answer is the zero-padded `YYYY-MM-DD`: ten characters, dashes at 4 and 7, digits elsewhere. Blank input is rejected. |
| Forms.DateDbToRu | app.py:41-51 | `None` and blank give the empty string and nothing else does. The result has the length of the stripped input. A stripped value of three `-` parts whose first part has four characters comes back as those parts in reverse order; anything else comes back stripped and unchanged. |
| Forms.ReorderDate | app.py:48-51 | Three `-` parts whose first has four characters are rejoined in reverse order, so splitting the result gives the reversed parts; anything else is returned unchanged. The length never changes. |
| Forms.IsoShape | app.py:35 | The database form of an in-range date has the `YYYY-MM-DD` shape. |
| Forms.DbToRuIsoText | app.py:48-50 | The database form of a date is displayed as the displayed form of the same date. |
| Forms.ReadRuText | app.py:29-33 | The zero-padded displayed form of a date reads back as that day, month and year. |
| Forms.DateRoundTrip | app.py:24-51 | For every entry, `_date_db_to_ru` applied to what `_date_ru_to_db` returns gives the zero-padded `DD-MM-YYYY` of the same date for an accepted entry, and the empty string for a rejected one. |
| Forms.CanonicalRoundTrip | app.py:24-51 | For an entry already in zero-padded `DD-MM-YYYY`, the round trip is the identity. |
| Forms.StoredRoundTrip | app.py:24-51 | A stored `YYYY-MM-DD` date, displayed and entered again, is stored unchanged. |
| Forms.AcceptsThirtyFirstOfFebruary | app.py:34 | Days per month are not checked: `31-02-2025` is accepted as `2025-02-31`. |

## Left out

- Concurrency: each call is one serial, atomic step. The source runs each
  call in its own transaction at default isolation with no row locks. Two
  concurrent creates can therefore both pass the check and overbook a slot.
  A sequential model cannot show that race.
- Connection handling, commit and rollback in postgres_driver.py are not
  part of this model. "An exception leaves the database unchanged" is stated
  directly instead. The unrelated users/orders demo in that file is not part
  of this model either.
- Sequence values consumed by failed inserts: PostgreSQL's `nextval` is not
  rolled back, so a failed `INSERT` leaves a gap in the ids. The model leaves
  the sequence unchanged on failure. Freshness of ids is the same either way.
- SQL text construction, `_row_to_dict` / `_one_row_to_dict` and the
  `created_at` timestamp: only their effect, which columns change, is
  modelled.
- The read-only calls (`get_*`, `get_all_*`), `create_user`, `update_user`
  and `create_tables`: they do not touch bookings or capacities. Users are
  only a set of ids, used for the foreign key and the cascade. models/user.py
  and models/__init__.py are not part of this model.
- The tkinter user interface of app.py (tabs, message boxes, tree views) is
  not modelled.
- Integer width: `SERIAL` and `INT` columns are 32-bit in PostgreSQL,
  and a value out of that range makes the statement fail with "integer out
  of range". The model uses unbounded integers for ids, numbers, capacities
  and guest counts, so that error and sequence exhaustion are not modelled.
  Ids passed by callers may be any integer, negative ones included.
- Text.ParseInt: models `int()` on ASCII digits with an optional sign and
  surrounding whitespace only. Python also accepts `_` between digits and
  non-ASCII decimal digits; both are rejected here. CPython 3.11 and later
  also refuse literals of more than 4300 digits (`sys.int_max_str_digits`);
  the model reads literals of any length.
- Forms.SafeInt: inherits the `int()` gap of Text.ParseInt.
- Forms.ReadDmy: inherits the `int()` gap of Text.ParseInt. For example
  `0_5-03-2025` is read as 5 March 2025 by the source and rejected here.
- Forms.DateRuToDb: inherits the same gap through Forms.ReadDmy, so
  `_date_ru_to_db("0_5-03-2025")` is `"2025-03-05"` in the source and `None`
  here; a field of more than 4300 digits is the other way round.
- Backend.CreateBooking, Backend.UpdateBooking: dates and times are opaque
  keys. In the source the capacity query and the write make PostgreSQL cast
  the text to `DATE` and `TIME`, and text it cannot read (`2025-02-31`,
  which `_date_ru_to_db("31-02-2025")` returns, or a time of `25:00`) makes
  the call raise. The model accepts every key, so that error is not
  modelled.
- Forms.DateDbToRu: takes the value as text. A Python `date` object is first
  turned into its ISO text by `str()`, which is how it reaches this function.

=== FILE: backend.dfy ===
/** The write operations of backend.py on bookings and tables, each as one
    serial, all-or-nothing transaction: a raised exception is an `Err` and
    leaves the database as it was. */
module Backend {
  import opened Wrappers
  import opened Schema
  import opened Slots

  /** Only the booking relation and its sequence may differ. */
  predicate SameTablesAndUsers(db: Db, db': Db) {
    && db'.users == db.users
    && db'.tables == db.tables
    && db'.nextTableId == db.nextTableId
  }

  /** `_check_table_capacity`: refuses a missing table and any request that
      would take the slot's occupancy (leaving out `exclude`) past the
      table's capacity; an overflow reports the occupancy it saw. */
  function CheckCapacity(db: Db, slot: Slot, guests: int, exclude: Option<BookingId>): (r: Result<(), CapacityError>)
    ensures r == Err(NoSuchTable) <==> slot.table !in db.tables
    ensures r.Ok? <==> (&& slot.table in db.tables
                        && Occupancy(db.bookings, slot, exclude) + guests <= db.tables[slot.table].capacity)
    ensures r.Err? && r.error.Exceeded? ==>
              && r.error.occupied == Occupancy(db.bookings, slot, exclude)
              && r.error.capacity == db.tables[slot.table].capacity
              && r.error.requested == guests
              && r.error.occupied + r.error.requested > r.error.capacity
  {
    if slot.table !in db.tables then Err(NoSuchTable)
    else
      var capacity := db.tables[slot.table].capacity;
      var total := Occupancy(db.bookings, slot, exclude);
      if total + guests > capacity then Err(Exceeded(total, capacity, guests)) else Ok(())
  }

  /** `create_booking`: the capacity check on the requested slot, then the
      `INSERT`, whose constraints are checked in PostgreSQL's order (CHECK
      before REFERENCES). On success exactly one booking, under a fresh id,
      is added and nothing else changes. */
  function CreateBooking(db: Db, user: UserId, table: TableId, date: Date, time: Time, guests: int)
    : (r: Result<(Db, BookingId), DbError>)
    ensures r.Ok? <==> && CheckCapacity(db, Slot(table, date, time), guests, None).Ok?
                       && guests > 0 && user in db.users
    ensures CheckCapacity(db, Slot(table, date, time), guests, None).Err? ==>
              r == Err(CapacityRefused(CheckCapacity(db, Slot(table, date, time), guests, None).error))
    ensures CheckCapacity(db, Slot(table, date, time), guests, None).Ok? && guests <= 0 ==>
              r == Err(CheckViolation)
    ensures CheckCapacity(db, Slot(table, date, time), guests, None).Ok? && guests > 0 && user !in db.users ==>
              r == Err(ForeignKeyViolation)
    ensures r.Ok? ==>
              var (db', id) := r.value;
              && id == db.nextBookingId
              && db'.bookings == db.bookings[id := Booking(user, table, date, time, guests)]
              && db'.nextBookingId == db.nextBookingId + 1
              && SameTablesAndUsers(db, db')
    ensures r.Ok? && Valid(db) ==> r.value.1 !in db.bookings
  {
    match CheckCapacity(db, Slot(table, date, time), guests, None)
    case Err(e) => Err(CapacityRefused(e))
    case Ok(_) =>
      if guests <= 0 then Err(CheckViolation)
      else if user !in db.users then Err(ForeignKeyViolation)
      else
        var id := db.nextBookingId;
        var row := Booking(user, table, date, time, guests);
        Ok((db.(bookings := db.bookings[id := row], nextBookingId := id + 1), id))
  }

  /** The optional arguments of `update_booking`; `None` leaves a column as
      it is. */
  datatype BookingPatch = BookingPatch(
    user: Option<UserId>,
    table: Option<TableId>,
    date: Option<Date>,
    time: Option<Time>,
    guests: Option<int>)
  {
    /** No column named: the source returns before touching the database. */
    predicate IsEmpty() {
      user.None? && table.None? && date.None? && time.None? && guests.None?
    }

    /** The row after the patch (the `eff_*` values and the `SET` clause):
        named columns take the new value, all others keep the stored one. */
    function ApplyTo(b: Booking): Booking {
      Booking(
        if user.Some? then user.value else b.user,
        if table.Some? then table.value else b.table,
        if date.Some? then date.value else b.date,
        if time.Some? then time.value else b.time,
        if guests.Some? then guests.value else b.guests)
    }
  }

  /** `update_booking`: an empty patch or a missing row answers `false`
      without a change; otherwise the capacity check runs on the effective
      slot and guest count with the booking itself left out, and only then
      is the row rewritten. */
  function UpdateBooking(db: Db, id: BookingId, patch: BookingPatch): (r: Result<(Db, bool), DbError>)
    ensures patch.IsEmpty() || id !in db.bookings ==> r == Ok((db, false))
    ensures r.Ok? && !r.value.1 ==> r.value.0 == db
    ensures r.Ok? && r.value.1 ==>
              && id in db.bookings
              && var eff := patch.ApplyTo(db.bookings[id]);
              && eff.table in db.tables
              && Occupancy(db.bookings, eff.SlotOf(), Some(id)) + eff.guests <= db.tables[eff.table].capacity
              && r.value.0 == db.(bookings := db.bookings[id := eff])
    ensures !patch.IsEmpty() && id in db.bookings && r.Ok? ==>
              && r.value.1
              && r.value.0 == db.(bookings := db.bookings[id := patch.ApplyTo(db.bookings[id])])
    ensures !patch.IsEmpty() && id in db.bookings ==>
              var eff := patch.ApplyTo(db.bookings[id]);
              && (r.Ok? <==> && CheckCapacity(db, eff.SlotOf(), eff.guests, Some(id)).Ok?
                             && eff.guests > 0 && eff.user in db.users)
              && (CheckCapacity(db, eff.SlotOf(), eff.guests, Some(id)).Err? ==>
                    r == Err(CapacityRefused(CheckCapacity(db, eff.SlotOf(), eff.guests, Some(id)).error)))
              && (CheckCapacity(db, eff.SlotOf(), eff.guests, Some(id)).Ok? && eff.guests <= 0 ==>
                    r == Err(CheckViolation))
              && (CheckCapacity(db, eff.SlotOf(), eff.guests, Some(id)).Ok? && eff.guests > 0 && eff.user !in db.users ==>
                    r == Err(ForeignKeyViolation))
  {
    if patch.IsEmpty() || id !in db.bookings then Ok((db, false))
    else
      var eff := patch.ApplyTo(db.bookings[id]);
      match CheckCapacity(db, eff.SlotOf(), eff.guests, Some(id))
      case Err(e) => Err(CapacityRefused(e))
      case Ok(_) =>
        if eff.guests <= 0 then Err(CheckViolation)
        else if eff.user !in db.users then Err(ForeignKeyViolation)
        else Ok((db.(bookings := db.bookings[id := eff]), true))
  }

  /** `delete_booking`: removes that one row, if any, and says whether it
      existed. */
  function DeleteBooking(db: Db, id: BookingId): (r: (Db, bool))
    ensures r.1 <==> id in db.bookings
    ensures r.0.bookings.Keys == db.bookings.Keys - {id}
    ensures SubTable(r.0.bookings, db.bookings)
    ensures SameTablesAndUsers(db, r.0) && r.0.nextBookingId == db.nextBookingId
  {
    (db.(bookings := db.bookings - {id}), id in db.bookings)
  }

  /** The bookings that survive the removal of table `t` or user `u`
      (`ON DELETE CASCADE`). */
  function Cascade(bs: map<BookingId, Booking>, gone: Booking -> bool): (r: map<BookingId, Booking>)
    ensures forall k :: k in r <==> k in bs && !gone(bs[k])
    ensures SubTable(r, bs)
  {
    map k | k in bs && !gone(bs[k]) :: bs[k]
  }

  /** `delete_table`: removes the table and, by cascade, exactly the bookings
      on it; says whether the table existed. */
  function DeleteTable(db: Db, t: TableId): (r: (Db, bool))
    ensures r.1 <==> t in db.tables
    ensures r.0.tables == db.tables - {t}
    ensures forall k :: k in r.0.bookings <==> k in db.bookings && db.bookings[k].table != t
    ensures SubTable(r.0.bookings, db.bookings)
    ensures r.0.users == db.users
    ensures r.0.nextTableId == db.nextTableId && r.0.nextBookingId == db.nextBookingId
  {
    var db' := db.(tables := db.tables - {t}, bookings := Cascade(db.bookings, (b: Booking) => b.table == t));
    (db', t in db.tables)
  }

  /** `delete_user`: removes the user and, by cascade, exactly that user's
      bookings; says whether the user existed. */
  function DeleteUser(db: Db, u: UserId): (r: (Db, bool))
    ensures r.1 <==> u in db.users
    ensures r.0.users == db.users - {u}
    ensures forall k :: k in r.0.bookings <==> k in db.bookings && db.bookings[k].user != u
    ensures SubTable(r.0.bookings, db.bookings)
    ensures r.0.tables == db.tables
    ensures r.0.nextTableId == db.nextTableId && r.0.nextBookingId == db.nextBookingId
  {
    var db' := db.(users := db.users - {u}, bookings := Cascade(db.bookings, (b: Booking) => b.user == u));
    (db', u in db.users)
  }

  /** Another table than `t` already carries `number`. */
  predicate NumberTaken(tables: map<TableId, Table>, t: TableId, number: int) {
    exists t' | t' in tables :: t' != t && tables[t'].number == number
  }

  /** The table row after `update_table` writes the named columns. */
  function PatchTable(row: Table, number: Option<int>, capacity: Option<int>): Table {
    Table(if number.Some? then number.value else row.number,
          if capacity.Some? then capacity.value else row.capacity)
  }

  /** `update_table`: writes the named columns of one table under its CHECK
      and UNIQUE constraints. It never looks at the bookings, so it may
      leave a slot holding more guests than the new capacity. */
  function UpdateTable(db: Db, t: TableId, number: Option<int>, capacity: Option<int>): (r: Result<(Db, bool), DbError>)
    ensures (number.None? && capacity.None?) || t !in db.tables ==> r == Ok((db, false))
    ensures r.Ok? && !r.value.1 ==> r.value.0 == db
    ensures r.Ok? ==> && r.value.0.bookings == db.bookings && r.value.0.users == db.users
                      && r.value.0.nextTableId == db.nextTableId
                      && r.value.0.nextBookingId == db.nextBookingId
    ensures r.Ok? && r.value.1 ==>
              && t in db.tables
              && r.value.0.tables == db.tables[t := PatchTable(db.tables[t], number, capacity)]
    ensures (number.Some? || capacity.Some?) && t in db.tables ==>
              var row := PatchTable(db.tables[t], number, capacity);
              && (r == Err(CheckViolation) <==> row.capacity <= 0)
              && (r == Err(UniqueViolation) <==> row.capacity > 0 && NumberTaken(db.tables, t, row.number))
              && (r.Ok? <==> row.capacity > 0 && !NumberTaken(db.tables, t, row.number))
              && (r.Ok? ==> r.value.1)
  {
    if (number.None? && capacity.None?) || t !in db.tables then Ok((db, false))
    else
      var row := PatchTable(db.tables[t], number, capacity);
      if row.capacity <= 0 then Err(CheckViolation)
      else if NumberTaken(db.tables, t, row.number) then Err(UniqueViolation)
      else Ok((db.(tables := db.tables[t := row]), true))
  }

  /** `create_table`: inserts a table under a fresh id, subject to the CHECK
      and UNIQUE constraints. */
  function CreateTable(db: Db, number: int, capacity: int): (r: Result<(Db, TableId), DbError>)
    ensures r == Err(CheckViolation) <==> capacity <= 0
    ensures r == Err(UniqueViolation) <==> capacity > 0 && NumberTaken(db.tables, db.nextTableId, number)
    ensures r.Ok? <==> capacity > 0 && !NumberTaken(db.tables, db.nextTableId, number)
    ensures r.Ok? ==>
              var (db', id) := r.value;
              && id == db.nextTableId
              && db'.tables == db.tables[id := Table(number, capacity)]
              && db'.nextTableId == db.nextTableId + 1
              && db'.bookings == db.bookings && db'.users == db.users
              && db'.nextBookingId == db.nextBookingId
    ensures r.Ok? && Valid(db) ==> r.value.1 !in db.tables
  {
    var id := db.nextTableId;
    if capacity <= 0 then Err(CheckViolation)
    else if NumberTaken(db.tables, id, number) then Err(UniqueViolation)
    else Ok((db.(tables := db.tables[id := Table(number, capacity)], nextTableId := id + 1), id))
  }
}

=== FILE: forms.dfy ===
/** The input helpers of the desktop front end (app.py): reading an optional
    integer from an entry field, and converting dates between the displayed
    `DD-MM-YYYY` form and the database's `YYYY-MM-DD` form. */
module Forms {
  import opened Wrappers
  import opened Text

  /** `_safe_int(value, default)`: blank input gives `default`, text that
      `int()` rejects gives `None` (not `default`), anything else its value. */
  function SafeInt(value: string, default: Option<int>): (r: Option<int>)
    ensures IsBlank(value) ==> r == default
    ensures !IsBlank(value) && !IsIntLiteral(Strip(value)) ==> r == None
    ensures !IsBlank(value) && IsDigits(Strip(value)) ==> r == Some(DigitsValue(Strip(value)))
    ensures !IsBlank(value) ==> r == ParseInt(value)
  {
    var t := Strip(value);
    StripIdempotent(value);
    if t == [] then default else ParseInt(t)
  }

  /** Every integer the user types in Python's own notation is read back,
      whatever the default. */
  lemma SafeIntShowInt(n: int, default: Option<int>)
    ensures SafeInt(ShowInt(n), default) == Some(n)
  {
    ParseShowInt(n);
    var s := ShowInt(n);
    StripClean(s);
    assert !IsBlank(s) by {
      if n < 0 { assert !IsSpace(s[0]); } else { assert IsDigit(s[0]); }
    }
  }

  /** Day, month and year as typed, before any range check. */
  datatype Dmy = Dmy(day: int, month: int, year: int)

  /** The range check of `_date_ru_to_db`. Days per month are not checked. */
  predicate InRange(x: Dmy) {
    && 1 <= x.day <= 31
    && 1 <= x.month <= 12
    && 1900 <= x.year <= 2100
  }

  /** The database form `YYYY-MM-DD`, zero padded. */
  function IsoText(x: Dmy): string
    requires InRange(x)
  {
    ZeroPad(x.year, 4) + "-" + ZeroPad(x.month, 2) + "-" + ZeroPad(x.day, 2)
  }

  /** The displayed form `DD-MM-YYYY`, zero padded. */
  function RuText(x: Dmy): string
    requires InRange(x)
  {
    ZeroPad(x.day, 2) + "-" + ZeroPad(x.month, 2) + "-" + ZeroPad(x.year, 4)
  }

  /** Ten characters, dashes at positions 4 and 7, digits everywhere else. */
  predicate IsIsoShape(r: string) {
    && |r| == 10
    && r[4] == '-' && r[7] == '-'
    && forall i | 0 <= i < 10 && i != 4 && i != 7 :: IsDigit(r[i])
  }

  /** The parsing half of `_date_ru_to_db`: strip, split on `-` into exactly
      three parts, and read each with `int()`. */
  function ReadDmy(s: string): (r: Option<Dmy>)
    ensures IsBlank(s) ==> r == None
    ensures |Split(Strip(s), '-')| != 3 ==> r == None
    ensures var p := Split(Strip(s), '-');
            r.Some? <==> |p| == 3 && ParseInt(p[0]).Some? && ParseInt(p[1]).Some? && ParseInt(p[2]).Some?
    ensures r.Some? ==>
              var p := Split(Strip(s), '-');
              r.value == Dmy(ParseInt(p[0]).value, ParseInt(p[1]).value, ParseInt(p[2]).value)
  {
    var t := Strip(s);
    if t == [] then None
    else
      var parts := Split(t, '-');
      if |parts| != 3 then None
      else
        match (ParseInt(parts[0]), ParseInt(parts[1]), ParseInt(parts[2]))
        case (Some(d), Some(m), Some(y)) => Some(Dmy(d, m, y))
        case _ => None
  }

  /** `_date_ru_to_db(s)`: accepts exactly the entries whose three fields are
      in range, and then answers in the ten-character database form. */
  function DateRuToDb(s: string): (r: Option<string>)
    ensures r.Some? <==> ReadDmy(s).Some? && InRange(ReadDmy(s).value)
    ensures r.Some? ==> IsIsoShape(r.value)
    ensures r.Some? ==> r.value == IsoText(ReadDmy(s).value)
    ensures IsBlank(s) ==> r == None
  {
    match ReadDmy(s)
    case Some(x) =>
      if InRange(x) then
        IsoShape(x);
        Some(IsoText(x))
      else None
    case None => None
  }

  lemma IsoShape(x: Dmy)
    requires InRange(x)
    ensures IsIsoShape(IsoText(x))
  {
    assert Pow10(4) == 10000 && Pow10(2) == 100;
    var y, m, d := ZeroPad(x.year, 4), ZeroPad(x.month, 2), ZeroPad(x.day, 2);
    var r := IsoText(x);
    assert |y| == 4 && |m| == 2 && |d| == 2;
    forall i | 0 <= i < 10 && i != 4 && i != 7 ensures IsDigit(r[i]) {
      if i < 4 { assert r[i] == y[i]; }
      else if i < 7 { assert r[i] == m[i - 5]; }
      else { assert r[i] == d[i - 8]; }
    }
  }

  /** The reordering step of `_date_db_to_ru`: three dash-separated parts
      whose first has four characters come back in reverse order; anything
      else comes back unchanged. The length never changes. */
  function ReorderDate(s: string): (r: string)
    ensures |r| == |s|
    ensures var p := Split(s, '-');
            if |p| == 3 && |p[0]| == 4 then Split(r, '-') == [p[2], p[1], p[0]] else r == s
  {
    var parts := Split(s, '-');
    if |parts| == 3 && |parts[0]| == 4 then
      assert parts == [parts[0], parts[1], parts[2]];
      SplitThree(parts[0], parts[1], parts[2], '-');
      SplitThree(parts[2], parts[1], parts[0], '-');
      parts[2] + "-" + parts[1] + "-" + parts[0]
    else s
  }

  /** `_date_db_to_ru(val)`: `None` and blank give the empty string; a value
      of three dash-separated parts whose first part has four characters has
      its parts reversed; anything else comes back stripped but unchanged.
      The result always has the length of the stripped input. */
  function DateDbToRu(val: Option<string>): (r: string)
    ensures r == [] <==> val.None? || IsBlank(val.value)
    ensures val.Some? ==> |r| == |Strip(val.value)|
    ensures val.Some? && |Split(Strip(val.value), '-')| != 3 ==> r == Strip(val.value)
    ensures val.Some? && !IsBlank(val.value) ==>
              var p := Split(Strip(val.value), '-');
              if |p| == 3 && |p[0]| == 4 then Split(r, '-') == [p[2], p[1], p[0]]
              else r == Strip(val.value)
  {
    match val
    case None => ""
    case Some(v) =>
      var s := Strip(v);
      if s == [] then "" else ReorderDate(s)
  }

  /** The three zero-padded fields of a formatted date, in order. */
  lemma SplitFields(a: string, b: string, c: string)
    requires AllDigits(a) && AllDigits(b) && AllDigits(c)
    ensures Split(a + "-" + b + "-" + c, '-') == [a, b, c]
  {
    SplitThree(a, b, c, '-');
  }

  /** A formatted date never has whitespace around it. */
  lemma StripFormatted(a: string, b: string, c: string)
    requires IsDigits(a) && IsDigits(c)
    ensures Strip(a + "-" + b + "-" + c) == a + "-" + b + "-" + c
  {
    var s := a + "-" + b + "-" + c;
    assert s[0] == a[0];
    assert s[|s| - 1] == c[|c| - 1];
    StripClean(s);
  }

  /** The database form is shown as the displayed form of the same date. */
  lemma DbToRuIsoText(x: Dmy)
    requires InRange(x)
    ensures DateDbToRu(Some(IsoText(x))) == RuText(x)
  {
    var y, m, d := ZeroPad(x.year, 4), ZeroPad(x.month, 2), ZeroPad(x.day, 2);
    assert Pow10(4) == 10000;
    StripFormatted(y, m, d);
    SplitFields(y, m, d);
  }

  /** The displayed form of a date reads back as that date. */
  lemma ReadRuText(x: Dmy)
    requires InRange(x)
    ensures ReadDmy(RuText(x)) == Some(x)
  {
    var d, m, y := ZeroPad(x.day, 2), ZeroPad(x.month, 2), ZeroPad(x.year, 4);
    StripFormatted(d, m, y);
    SplitFields(d, m, y);
    ParseZeroPad(x.day, 2);
    ParseZeroPad(x.month, 2);
    ParseZeroPad(x.year, 4);
  }

  /** Round trip through the database: an accepted entry is displayed again
      as the zero-padded `DD-MM-YYYY` of the same day, month and year, and a
      rejected one (stored as `None`) is displayed as the empty string. */
  lemma DateRoundTrip(s: string)
    ensures DateRuToDb(s).Some? ==> DateDbToRu(DateRuToDb(s)) == RuText(ReadDmy(s).value)
    ensures DateRuToDb(s).None? ==> DateDbToRu(DateRuToDb(s)) == ""
  {
    if DateRuToDb(s).Some? {
      DbToRuIsoText(ReadDmy(s).value);
    }
  }

  /** An entry already in canonical displayed form survives the round trip
      unchanged. */
  lemma CanonicalRoundTrip(x: Dmy)
    requires InRange(x)
    ensures DateRuToDb(RuText(x)) == Some(IsoText(x))
    ensures DateDbToRu(DateRuToDb(RuText(x))) == RuText(x)
  {
    ReadRuText(x);
    DbToRuIsoText(x);
  }

  /** A date stored by the database is displayed and re-entered unchanged. */
  lemma StoredRoundTrip(x: Dmy)
    requires InRange(x)
    ensures DateRuToDb(DateDbToRu(Some(IsoText(x)))) == Some(IsoText(x))
  {
    DbToRuIsoText(x);
    ReadRuText(x);
  }

  /** The day is checked against 31 only: the 31st of February passes. */
  lemma AcceptsThirtyFirstOfFebruary()
    ensures DateRuToDb("31-02-2025") == Some("2025-02-31")
  {
    var x := Dmy(31, 2, 2025);
    assert ShowNat(31) == "31" && ShowNat(2) == "2" && ShowNat(2025) == "2025";
    assert RuText(x) == "31-02-2025";
    assert IsoText(x) == "2025-02-31";
    CanonicalRoundTrip(x);
  }
}

=== FILE: invariant.dfy ===
/** What the operations of backend.py do to the database-wide invariants:
    the DDL constraints always survive, and under serial execution the
    capacity invariant survives every booking write and every delete, but
    not `update_table`. */
module Invariant {
  import opened Wrappers
  import opened Schema
  import opened Slots
  import opened Backend

  /** The database an operation leaves behind: its new state on success, the
      old one when it raised (the transaction was rolled back). */
  function Settle<T>(db: Db, r: Result<(Db, T), DbError>): (db': Db)
    ensures r.Err? ==> db' == db
  {
    if r.Ok? then r.value.0 else db
  }

  /** A booking may be written into `db` without violating any constraint. */
  lemma RowValidAfterBookingWrite(db: Db, db': Db, id: BookingId, b: Booking)
    requires Valid(db)
    requires BookingRowValid(db, b)
    requires SameTablesAndUsers(db, db')
    requires db'.bookings == db.bookings[id := b]
    requires id < db'.nextBookingId && db.nextBookingId <= db'.nextBookingId
    ensures Valid(db')
  {
  }

  /** `create_booking` keeps the DDL constraints on its own. */
  lemma CreateBookingKeepsValid(db: Db, user: UserId, table: TableId, date: Date, time: Time, guests: int)
    requires Valid(db)
    ensures Valid(Settle(db, CreateBooking(db, user, table, date, time, guests)))
  {
    var r := CreateBooking(db, user, table, date, time, guests);
    if r.Ok? {
      RowValidAfterBookingWrite(db, r.value.0, r.value.1, Booking(user, table, date, time, guests));
    }
  }

  /** `update_booking` keeps the DDL constraints on its own. */
  lemma UpdateBookingKeepsValid(db: Db, id: BookingId, patch: BookingPatch)
    requires Valid(db)
    ensures Valid(Settle(db, UpdateBooking(db, id, patch)))
  {
    var r := UpdateBooking(db, id, patch);
    if r.Ok? && r.value.1 {
      RowValidAfterBookingWrite(db, r.value.0, id, patch.ApplyTo(db.bookings[id]));
    }
  }

  /** `create_booking` keeps the DDL constraints and the capacity invariant. */
  lemma CreateBookingPreserves(db: Db, user: UserId, table: TableId, date: Date, time: Time, guests: int)
    requires Valid(db) && WithinCapacity(db)
    ensures Valid(Settle(db, CreateBooking(db, user, table, date, time, guests)))
    ensures WithinCapacity(Settle(db, CreateBooking(db, user, table, date, time, guests)))
  {
    var r := CreateBooking(db, user, table, date, time, guests);
    if r.Ok? {
      var (db', id) := r.value;
      var b := Booking(user, table, date, time, guests);
      RowValidAfterBookingWrite(db, db', id, b);
      forall s: Slot | s.table in db'.tables
        ensures Occupancy(db'.bookings, s, None) <= db'.tables[s.table].capacity
      {
        OccupancyInsert(db.bookings, id, b, s, None);
      }
    }
  }

  /** `update_booking` keeps the DDL constraints and the capacity invariant:
      the booking's own old guests are left out of the check, and its new
      guests are exactly what the new slot gains. */
  lemma UpdateBookingPreserves(db: Db, id: BookingId, patch: BookingPatch)
    requires Valid(db) && WithinCapacity(db)
    ensures Valid(Settle(db, UpdateBooking(db, id, patch)))
    ensures WithinCapacity(Settle(db, UpdateBooking(db, id, patch)))
  {
    var r := UpdateBooking(db, id, patch);
    if r.Ok? && r.value.1 {
      var db' := r.value.0;
      var eff := patch.ApplyTo(db.bookings[id]);
      RowValidAfterBookingWrite(db, db', id, eff);
      forall s: Slot | s.table in db'.tables
        ensures Occupancy(db'.bookings, s, None) <= db'.tables[s.table].capacity
      {
        OccupancyReplace(db.bookings, id, eff, s, None);
        OccupancyExcluding(db.bookings, id, s);
      }
    }
  }

  /** Changing only the guest count of a booking passes the capacity check
      exactly when the other bookings of its slot plus the new count fit:
      the booking's own old guests are not counted twice. */
  lemma UpdateGuestsSelfExcluded(db: Db, id: BookingId, g: int)
    requires Valid(db)
    requires id in db.bookings
    ensures var b := db.bookings[id];
            CheckCapacity(db, b.SlotOf(), g, Some(id)).Ok?
            <==> Occupancy(db.bookings, b.SlotOf(), None) - b.guests + g <= db.tables[b.table].capacity
  {
    OccupancyExcluding(db.bookings, id, db.bookings[id].SlotOf());
  }

  /** Lowering the guests of any booking, even in a full slot, always
      succeeds and changes nothing but that count. */
  lemma LoweringGuestsAlwaysPasses(db: Db, id: BookingId, g: int)
    requires Valid(db) && WithinCapacity(db)
    requires id in db.bookings && 0 < g <= db.bookings[id].guests
    ensures UpdateBooking(db, id, BookingPatch(None, None, None, None, Some(g)))
         == Ok((db.(bookings := db.bookings[id := db.bookings[id].(guests := g)]), true))
  {
    var b := db.bookings[id];
    UpdateGuestsSelfExcluded(db, id, g);
    assert Occupancy(db.bookings, b.SlotOf(), None) <= db.tables[b.table].capacity;
  }

  /** Without the exclusion a booking would be counted against itself: in a
      full slot, re-submitting its own unchanged guest count would fail. */
  lemma CheckWithoutExclusionDoubleCounts(db: Db, id: BookingId)
    requires Valid(db)
    requires id in db.bookings
    requires Occupancy(db.bookings, db.bookings[id].SlotOf(), None) == db.tables[db.bookings[id].table].capacity
    ensures CheckCapacity(db, db.bookings[id].SlotOf(), db.bookings[id].guests, None).Err?
    ensures CheckCapacity(db, db.bookings[id].SlotOf(), db.bookings[id].guests, Some(id)).Ok?
  {
    UpdateGuestsSelfExcluded(db, id, db.bookings[id].guests);
  }

  /** `delete_booking` keeps the DDL constraints and the capacity invariant. */
  lemma DeleteBookingPreserves(db: Db, id: BookingId)
    requires Valid(db) && WithinCapacity(db)
    ensures Valid(DeleteBooking(db, id).0)
    ensures WithinCapacity(DeleteBooking(db, id).0)
  {
    var db' := DeleteBooking(db, id).0;
    forall s: Slot | s.table in db'.tables
      ensures Occupancy(db'.bookings, s, None) <= db'.tables[s.table].capacity
    {
      OccupancySubTable(db'.bookings, db.bookings, s);
    }
  }

  /** Deleting a booking frees exactly its guests in its own slot and
      changes no other slot: occupancy never increases. */
  lemma DeleteBookingFrees(db: Db, id: BookingId, s: Slot)
    ensures Occupancy(DeleteBooking(db, id).0.bookings, s, None)
         == Occupancy(db.bookings, s, None)
            - (if id in db.bookings && db.bookings[id].SlotOf() == s then db.bookings[id].guests else 0)
  {
    if id in db.bookings {
      OccupancyRemove(db.bookings, id, s, None);
    } else {
      assert db.bookings - {id} == db.bookings;
    }
  }

  /** `delete_table` keeps the DDL constraints (the cascade leaves no booking
      pointing at the removed table) and the capacity invariant. */
  lemma DeleteTablePreserves(db: Db, t: TableId)
    requires Valid(db) && WithinCapacity(db)
    ensures Valid(DeleteTable(db, t).0)
    ensures WithinCapacity(DeleteTable(db, t).0)
  {
    var db' := DeleteTable(db, t).0;
    forall s: Slot | s.table in db'.tables
      ensures Occupancy(db'.bookings, s, None) <= db'.tables[s.table].capacity
    {
      OccupancySubTable(db'.bookings, db.bookings, s);
    }
  }

  /** `delete_user` keeps the DDL constraints (the cascade leaves no booking
      pointing at the removed user) and the capacity invariant. */
  lemma DeleteUserPreserves(db: Db, u: UserId)
    requires Valid(db) && WithinCapacity(db)
    ensures Valid(DeleteUser(db, u).0)
    ensures WithinCapacity(DeleteUser(db, u).0)
  {
    var db' := DeleteUser(db, u).0;
    forall s: Slot | s.table in db'.tables
      ensures Occupancy(db'.bookings, s, None) <= db'.tables[s.table].capacity
    {
      OccupancySubTable(db'.bookings, db.bookings, s);
    }
  }

  /** `create_table` keeps the DDL constraints and the capacity invariant:
      nothing is booked on a table that did not exist. */
  lemma CreateTablePreserves(db: Db, number: int, capacity: int)
    requires Valid(db) && WithinCapacity(db)
    ensures Valid(Settle(db, CreateTable(db, number, capacity)))
    ensures WithinCapacity(Settle(db, CreateTable(db, number, capacity)))
  {
    var r := CreateTable(db, number, capacity);
    if r.Ok? {
      var (db', id) := r.value;
      forall s: Slot | s.table in db'.tables
        ensures Occupancy(db'.bookings, s, None) <= db'.tables[s.table].capacity
      {
        if s.table == id {
          OccupancyEmptySlot(db.bookings, s, None);
        }
      }
    }
  }

  /** `update_table` keeps the DDL constraints. */
  lemma UpdateTableKeepsValid(db: Db, t: TableId, number: Option<int>, capacity: Option<int>)
    requires Valid(db)
    ensures Valid(Settle(db, UpdateTable(db, t, number, capacity)))
  {
  }

  /** `update_table` keeps the capacity invariant only when the new capacity
      still covers every slot of the table: it does not check this itself. */
  lemma UpdateTableKeepsCapacityIfRoomy(db: Db, t: TableId, number: Option<int>, capacity: Option<int>)
    requires Valid(db) && WithinCapacity(db)
    requires capacity.Some? ==>
               forall s: Slot | s.table == t :: Occupancy(db.bookings, s, None) <= capacity.value
    ensures WithinCapacity(Settle(db, UpdateTable(db, t, number, capacity)))
  {
  }

  /** Lowering a table's capacity below what one of its slots already holds
      succeeds, and leaves the database over capacity. */
  lemma UpdateTableMayBreakCapacity(db: Db, s: Slot, c: int)
    requires Valid(db)
    requires s.table in db.tables
    requires 0 < c < Occupancy(db.bookings, s, None)
    ensures UpdateTable(db, s.table, None, Some(c)).Ok?
    ensures UpdateTable(db, s.table, None, Some(c)).value.1
    ensures !WithinCapacity(UpdateTable(db, s.table, None, Some(c)).value.0)
  {
    var r := UpdateTable(db, s.table, None, Some(c));
    assert !NumberTaken(db.tables, s.table, db.tables[s.table].number);
    assert r.Ok?;
    var db' := r.value.0;
    assert s.table in db'.tables && Occupancy(db'.bookings, s, None) > db'.tables[s.table].capacity;
  }

  /** A database with one table of four seats and one booking for three. */
  function SmallRestaurant(): Db {
    Db({0}, map[0 := Table(1, 4)], map[0 := Booking(0, 0, "2025-03-05", "19:00:00", 3)], 1, 1)
  }

  /** The small restaurant satisfies every invariant, yet shrinking its table
      to two seats through `update_table` is accepted and overbooks it. */
  lemma UpdateTableBreaksSmallRestaurant()
    ensures Valid(SmallRestaurant()) && WithinCapacity(SmallRestaurant())
    ensures UpdateTable(SmallRestaurant(), 0, None, Some(2)).Ok?
    ensures !WithinCapacity(UpdateTable(SmallRestaurant(), 0, None, Some(2)).value.0)
  {
    var db := SmallRestaurant();
    var b := db.bookings[0];
    forall s: Slot | s.table in db.tables
      ensures Occupancy(db.bookings, s, None) <= db.tables[s.table].capacity
    {
      OccupancyInsert(map[], 0, b, s, None);
      assert map[][0 := b] == db.bookings;
    }
    OccupancyInsert(map[], 0, b, b.SlotOf(), None);
    assert map[][0 := b] == db.bookings;
    UpdateTableMayBreakCapacity(db, b.SlotOf(), 2);
  }

  /** Repeating a successful `update_booking` with the same arguments is
      safe: it passes the capacity check again, answers `true`, and writes
      the row it already holds. */
  lemma UpdateBookingRepeat(db: Db, id: BookingId, patch: BookingPatch)
    requires UpdateBooking(db, id, patch).Ok? && UpdateBooking(db, id, patch).value.1
    ensures var db' := UpdateBooking(db, id, patch).value.0;
            UpdateBooking(db', id, patch) == Ok((db', true))
  {
    var db' := UpdateBooking(db, id, patch).value.0;
    var eff := patch.ApplyTo(db.bookings[id]);
    assert db' == db.(bookings := db.bookings[id := eff]);
    assert db'.bookings[id] == eff && patch.ApplyTo(eff) == eff;
    assert db'.bookings - {id} == db.bookings - {id};
    OccupancyExcluding(db.bookings, id, eff.SlotOf());
    OccupancyExcluding(db'.bookings, id, eff.SlotOf());
    assert CheckCapacity(db', eff.SlotOf(), eff.guests, Some(id)) == CheckCapacity(db, eff.SlotOf(), eff.guests, Some(id));
    assert db'.bookings[id := eff] == db'.bookings;
  }
}

=== FILE: runs.dfy ===
/** Sequences of backend calls executed one after another, each as its own
    transaction. */
module Runs {
  import opened Wrappers
  import opened Schema
  import opened Slots
  import opened Backend
  import opened Invariant

  /** One call of a backend write operation with its arguments. */
  datatype Op =
    | CreateBookingOp(user: UserId, table: TableId, date: Date, time: Time, guests: int)
    | UpdateBookingOp(booking: BookingId, patch: BookingPatch)
    | DeleteBookingOp(booking: BookingId)
    | CreateTableOp(number: int, capacity: int)
    | UpdateTableOp(table: TableId, newNumber: Option<int>, newCapacity: Option<int>)
    | DeleteTableOp(table: TableId)
    | DeleteUserOp(user: UserId)

  /** The database after one call; a call that raised leaves it unchanged. */
  function Step(db: Db, op: Op): Db {
    match op
    case CreateBookingOp(u, t, d, h, g) => Settle(db, CreateBooking(db, u, t, d, h, g))
    case UpdateBookingOp(id, p) => Settle(db, UpdateBooking(db, id, p))
    case DeleteBookingOp(id) => DeleteBooking(db, id).0
    case CreateTableOp(n, c) => Settle(db, CreateTable(db, n, c))
    case UpdateTableOp(t, n, c) => Settle(db, UpdateTable(db, t, n, c))
    case DeleteTableOp(t) => DeleteTable(db, t).0
    case DeleteUserOp(u) => DeleteUser(db, u).0
  }

  /** The database after a sequence of calls, in order. */
  function Run(db: Db, ops: seq<Op>): Db
    decreases |ops|
  {
    if ops == [] then db else Run(Step(db, ops[0]), ops[1..])
  }

  /** One call keeps the DDL constraints; any call but `update_table` also
      keeps the capacity invariant; neither sequence ever goes back. */
  lemma StepPreserves(db: Db, op: Op)
    requires Valid(db)
    ensures Valid(Step(db, op))
    ensures WithinCapacity(db) && !op.UpdateTableOp? ==> WithinCapacity(Step(db, op))
    ensures db.nextBookingId <= Step(db, op).nextBookingId
    ensures db.nextTableId <= Step(db, op).nextTableId
  {
    match op
    case CreateBookingOp(u, t, d, h, g) =>
      if WithinCapacity(db) { CreateBookingPreserves(db, u, t, d, h, g); }
      else { assert Valid(Step(db, op)) by { CreateBookingKeepsValid(db, u, t, d, h, g); } }
    case UpdateBookingOp(id, p) =>
      if WithinCapacity(db) { UpdateBookingPreserves(db, id, p); }
      else { assert Valid(Step(db, op)) by { UpdateBookingKeepsValid(db, id, p); } }
    case DeleteBookingOp(id) =>
      if WithinCapacity(db) { DeleteBookingPreserves(db, id); }
    case CreateTableOp(n, c) =>
      if WithinCapacity(db) { CreateTablePreserves(db, n, c); }
    case UpdateTableOp(t, n, c) =>
      UpdateTableKeepsValid(db, t, n, c);
    case DeleteTableOp(t) =>
      if WithinCapacity(db) { DeleteTablePreserves(db, t); }
    case DeleteUserOp(u) =>
      if WithinCapacity(db) { DeleteUserPreserves(db, u); }
  }

  /** Serial execution of any calls keeps the DDL constraints. */
  lemma {:induction false} RunKeepsValid(db: Db, ops: seq<Op>)
    requires Valid(db)
    ensures Valid(Run(db, ops))
    decreases |ops|
  {
    if ops != [] {
      StepPreserves(db, ops[0]);
      RunKeepsValid(Step(db, ops[0]), ops[1..]);
    }
  }

  /** The main property: starting within capacity, any serial sequence of
      booking creates, updates and deletes, table creates and deletes and
      user deletes ends within capacity. */
  lemma {:induction false} RunKeepsCapacity(db: Db, ops: seq<Op>)
    requires Valid(db) && WithinCapacity(db)
    requires forall i | 0 <= i < |ops| :: !ops[i].UpdateTableOp?
    ensures Valid(Run(db, ops)) && WithinCapacity(Run(db, ops))
    decreases |ops|
  {
    if ops != [] {
      StepPreserves(db, ops[0]);
      RunKeepsCapacity(Step(db, ops[0]), ops[1..]);
    }
  }

  /** Ids are never handed out twice: every id issued before a run stays
      below the booking sequence after it, so no later insert can reuse it. */
  lemma {:induction false} RunNeverReusesIds(db: Db, ops: seq<Op>)
    requires Valid(db)
    ensures db.nextBookingId <= Run(db, ops).nextBookingId
    ensures db.nextTableId <= Run(db, ops).nextTableId
    decreases |ops|
  {
    if ops != [] {
      StepPreserves(db, ops[0]);
      RunNeverReusesIds(Step(db, ops[0]), ops[1..]);
    }
  }

  /** A booking inserted after any run gets an id that no booking existing
      before the run ever had, and that no booking holds after it. */
  lemma LaterBookingGetsNewId(db: Db, ops: seq<Op>, user: UserId, table: TableId, date: Date, time: Time, guests: int)
    requires Valid(db)
    ensures var r := CreateBooking(Run(db, ops), user, table, date, time, guests);
            r.Ok? ==> && r.value.1 >= db.nextBookingId
                      && r.value.1 !in db.bookings
                      && r.value.1 !in Run(db, ops).bookings
  {
    RunNeverReusesIds(db, ops);
    RunKeepsValid(db, ops);
  }

  /** Likewise for a table inserted after any run. */
  lemma LaterTableGetsNewId(db: Db, ops: seq<Op>, number: int, capacity: int)
    requires Valid(db)
    ensures var r := CreateTable(Run(db, ops), number, capacity);
            r.Ok? ==> && r.value.1 >= db.nextTableId
                      && r.value.1 !in db.tables
                      && r.value.1 !in Run(db, ops).tables
  {
    RunNeverReusesIds(db, ops);
    RunKeepsValid(db, ops);
  }
}

=== FILE: scenarios.dfy ===
/** Concrete runs of the booking path on a one-table restaurant. */
module Scenarios {
  import opened Wrappers
  import opened Schema
  import opened Slots
  import opened Backend
  import opened Invariant

  const Evening: Slot := Slot(0, "2025-03-05", "19:00:00")

  /** Occupancy of a table holding a single booking. */
  lemma SingleBookingOccupancy(b: Booking, s: Slot)
    ensures Occupancy(map[0 := b], s, None) == (if b.SlotOf() == s then b.guests else 0)
  {
    OccupancyInsert(map[], 0, b, s, None);
    assert map[][0 := b] == map[0 := b];
  }

  /** A four-seat table holding three guests refuses two more, reporting
      three of four seats taken and two requested. */
  lemma SecondBookingOverflows()
    ensures CreateBooking(SmallRestaurant(), 0, 0, "2025-03-05", "19:00:00", 2)
         == Err(CapacityRefused(Exceeded(3, 4, 2)))
  {
    SingleBookingOccupancy(SmallRestaurant().bookings[0], Evening);
  }

  /** The same table accepts one more guest, under the next id. */
  lemma LastSeatIsBookable()
    ensures CreateBooking(SmallRestaurant(), 0, 0, "2025-03-05", "19:00:00", 1).Ok?
    ensures CreateBooking(SmallRestaurant(), 0, 0, "2025-03-05", "19:00:00", 1).value.1 == 1
  {
    SingleBookingOccupancy(SmallRestaurant().bookings[0], Evening);
  }

  /** The booking for three may grow to four: its own guests are left out. */
  lemma GrowingToCapacityPasses()
    ensures UpdateBooking(SmallRestaurant(), 0, BookingPatch(None, None, None, None, Some(4))).Ok?
    ensures UpdateBooking(SmallRestaurant(), 0, BookingPatch(None, None, None, None, Some(4))).value.1
  {
    UpdateGuestsSelfExcluded(SmallRestaurant(), 0, 4);
    SingleBookingOccupancy(SmallRestaurant().bookings[0], Evening);
  }

  /** Once the booking for three is deleted, four guests fit again. */
  lemma DeleteFreesTheSlot()
    ensures var db := DeleteBooking(SmallRestaurant(), 0).0;
            CreateBooking(db, 0, 0, "2025-03-05", "19:00:00", 4).Ok?
  {
    var db := DeleteBooking(SmallRestaurant(), 0).0;
    assert db.bookings == map[];
  }

  /** A booking on a table that does not exist is refused by the capacity
      check, with the same error class as an overflow. */
  lemma MissingTableRefused()
    ensures CreateBooking(SmallRestaurant(), 0, 7, "2025-03-05", "19:00:00", 2)
         == Err(CapacityRefused(NoSuchTable))
  {
  }
}

=== FILE: schema.dfy ===
/** The three relations of the booking database and the constraints their
    DDL declares (models/tables.py, models/booking.py). Users are modelled by
    their ids only: their other columns never take part in a booking check. */
module Schema {

  /** Ids are any integers a caller may pass. `SERIAL` sequences start at
      1, but nothing here relies on that: `Valid` only asks that every
      stored id lies below its sequence's next value. */
  type UserId = int
  type TableId = int
  type BookingId = int

  /** A `DATE` value, assumed already normalised: the database compares
      dates, not their spellings, and the model compares these keys. */
  type Date = string

  /** A `TIME` value, assumed already normalised in the same way: the
      database treats `10:00` and `10:00:00` as one time, while two
      different strings here are two different slots. */
  type Time = string

  /** A row of `restaurant_tables`, keyed by its `SERIAL` id. */
  datatype Table = Table(number: int, capacity: int)

  /** The unit over which guests are summed: one table at one date and time. */
  datatype Slot = Slot(table: TableId, date: Date, time: Time)

  /** A row of `bookings`, keyed by its `SERIAL` id; `created_at` is left out. */
  datatype Booking = Booking(user: UserId, table: TableId, date: Date, time: Time, guests: int) {
    function SlotOf(): Slot {
      Slot(table, date, time)
    }
  }

  /** The database: the user ids, both keyed relations, and the next values
      of the two `SERIAL` sequences. */
  datatype Db = Db(
    users: set<UserId>,
    tables: map<TableId, Table>,
    bookings: map<BookingId, Booking>,
    nextTableId: nat,
    nextBookingId: nat)

  /** What `_check_table_capacity` raises. Both cases are the one exception
      class `BookingCapacityError` in the source; they differ in message. */
  datatype CapacityError =
    | NoSuchTable
    | Exceeded(occupied: int, capacity: int, requested: int)

  /** Every way a booking or table write can fail. */
  datatype DbError =
    | CapacityRefused(reason: CapacityError)
    | CheckViolation       // a CHECK (... > 0) constraint
    | UniqueViolation      // the UNIQUE table_number constraint
    | ForeignKeyViolation  // a REFERENCES constraint

  /** `capacity INT NOT NULL CHECK (capacity > 0)`, and table ids come from
      the sequence. */
  predicate TablesValid(db: Db) {
    forall t | t in db.tables :: db.tables[t].capacity > 0 && t < db.nextTableId
  }

  /** `table_number INT NOT NULL UNIQUE`. */
  predicate NumbersUnique(tables: map<TableId, Table>) {
    forall t1, t2 | t1 in tables && t2 in tables && tables[t1].number == tables[t2].number :: t1 == t2
  }

  /** `guests_count CHECK (guests_count > 0)` and both `REFERENCES` clauses. */
  predicate BookingRowValid(db: Db, b: Booking) {
    && b.guests > 0
    && b.user in db.users
    && b.table in db.tables
  }

  /** Every booking row satisfies its constraints, and its id came from the
      sequence. */
  predicate BookingsValid(db: Db) {
    forall k | k in db.bookings :: k < db.nextBookingId && BookingRowValid(db, db.bookings[k])
  }

  /** Everything the DDL guarantees about a database state. */
  predicate Valid(db: Db) {
    && TablesValid(db)
    && NumbersUnique(db.tables)
    && BookingsValid(db)
  }
}

=== FILE: slots.dfy ===
/** Occupancy of a slot: the `COALESCE(SUM(guests_count), 0)` query of
    `_check_table_capacity`, with or without one booking left out, and the
    capacity invariant stated over it. */
module Slots {
  import opened Wrappers
  import opened Schema

  /** Some element of a non-empty set of ids. */
  lemma Pick(ks: set<int>) returns (x: int)
    requires ks != {}
    ensures x in ks
  {
    // Not dead code: the branch hands the prover the witness that the
    // such-that below needs, which it does not find from `ks != {}` alone.
    if forall y: int :: y !in ks {
      assert false;
    }
    x :| x in ks;
  }

  lemma {:induction false} MinExists(ks: set<int>)
    requires ks != {}
    ensures exists m :: m in ks && forall k | k in ks :: m <= k
    decreases ks
  {
    var x := Pick(ks);
    if ks != {x} {
      MinExists(ks - {x});
      var m: int :| m in ks - {x} && forall k | k in ks - {x} :: m <= k;
      var least := if x < m then x else m;
      forall k | k in ks ensures least <= k {
        if k != x { assert k in ks - {x}; }
      }
    }
  }

  /** The least key of a non-empty set of ids. */
  function MinKey(ks: set<int>): (m: int)
    requires ks != {}
    ensures m in ks && forall k | k in ks :: m <= k
  {
    MinExists(ks);
    var m :| m in ks && forall k | k in ks :: m <= k;
    m
  }

  /** What booking `k` adds to the sum for slot `s` when `exclude` is left out. */
  function Share(k: BookingId, b: Booking, s: Slot, exclude: Option<BookingId>): int {
    if b.SlotOf() == s && exclude != Some(k) then b.guests else 0
  }

  /** The guests booked in slot `s`, leaving out booking `exclude` if given;
      zero for an empty slot, as `COALESCE(..., 0)` gives. */
  function Occupancy(bs: map<BookingId, Booking>, s: Slot, exclude: Option<BookingId>): int
    decreases bs.Keys
  {
    if bs.Keys == {} then 0
    else
      var k := MinKey(bs.Keys);
      Share(k, bs[k], s, exclude) + Occupancy(bs - {k}, s, exclude)
  }

  /** With positive guest counts the sum is never negative, and it is zero
      exactly when no row outside the exclusion is in the slot. */
  lemma {:induction false} OccupancyZero(bs: map<BookingId, Booking>, s: Slot, exclude: Option<BookingId>)
    requires forall k | k in bs :: bs[k].guests > 0
    ensures Occupancy(bs, s, exclude) >= 0
    ensures Occupancy(bs, s, exclude) == 0 <==> forall k | k in bs :: bs[k].SlotOf() != s || exclude == Some(k)
    decreases bs.Keys
  {
    if bs.Keys != {} {
      var k := MinKey(bs.Keys);
      OccupancyZero(bs - {k}, s, exclude);
    }
  }

  /** The sum does not depend on the order in which rows are visited: any
      booking can be taken out first. */
  lemma {:induction false} OccupancyRemove(bs: map<BookingId, Booking>, k: BookingId, s: Slot, exclude: Option<BookingId>)
    requires k in bs
    ensures Occupancy(bs, s, exclude) == Share(k, bs[k], s, exclude) + Occupancy(bs - {k}, s, exclude)
    decreases bs.Keys
  {
    var m := MinKey(bs.Keys);
    if m != k {
      OccupancyRemove(bs - {m}, k, s, exclude);
      var rest := bs - {k};
      assert m in rest.Keys;
      assert MinKey(rest.Keys) == m;
      assert rest - {m} == (bs - {m}) - {k};
    }
  }

  /** Inserting a new booking adds exactly its share. */
  lemma OccupancyInsert(bs: map<BookingId, Booking>, k: BookingId, b: Booking, s: Slot, exclude: Option<BookingId>)
    requires k !in bs
    ensures Occupancy(bs[k := b], s, exclude) == Share(k, b, s, exclude) + Occupancy(bs, s, exclude)
  {
    OccupancyRemove(bs[k := b], k, s, exclude);
    assert bs[k := b] - {k} == bs;
  }

  /** Replacing a booking swaps its old share for its new one. */
  lemma OccupancyReplace(bs: map<BookingId, Booking>, k: BookingId, b: Booking, s: Slot, exclude: Option<BookingId>)
    requires k in bs
    ensures Occupancy(bs[k := b], s, exclude) == Share(k, b, s, exclude) + Occupancy(bs - {k}, s, exclude)
  {
    OccupancyRemove(bs[k := b], k, s, exclude);
    assert bs[k := b] - {k} == bs - {k};
  }

  /** Leaving out an id that has no row changes nothing. */
  lemma {:induction false} OccupancyExcludeAbsent(bs: map<BookingId, Booking>, k: BookingId, s: Slot)
    requires k !in bs
    ensures Occupancy(bs, s, Some(k)) == Occupancy(bs, s, None)
    decreases bs.Keys
  {
    if bs.Keys != {} {
      var m := MinKey(bs.Keys);
      OccupancyExcludeAbsent(bs - {m}, k, s);
    }
  }

  /** Leaving out booking `k` subtracts exactly its own guests from the slot
      it is in, and nothing from any other slot. */
  lemma OccupancyExcluding(bs: map<BookingId, Booking>, k: BookingId, s: Slot)
    requires k in bs
    ensures Occupancy(bs, s, Some(k)) == Occupancy(bs - {k}, s, None)
    ensures Occupancy(bs, s, Some(k))
         == Occupancy(bs, s, None) - (if bs[k].SlotOf() == s then bs[k].guests else 0)
  {
    OccupancyRemove(bs, k, s, Some(k));
    OccupancyRemove(bs, k, s, None);
    OccupancyExcludeAbsent(bs - {k}, k, s);
  }

  /** A slot no booking is in has occupancy zero. */
  lemma {:induction false} OccupancyEmptySlot(bs: map<BookingId, Booking>, s: Slot, exclude: Option<BookingId>)
    requires forall k | k in bs :: bs[k].SlotOf() != s
    ensures Occupancy(bs, s, exclude) == 0
    decreases bs.Keys
  {
    if bs.Keys != {} {
      var m := MinKey(bs.Keys);
      OccupancyEmptySlot(bs - {m}, s, exclude);
    }
  }

  /** `small` keeps some rows of `big` unchanged and drops the others. */
  ghost predicate SubTable(small: map<BookingId, Booking>, big: map<BookingId, Booking>) {
    forall k | k in small :: k in big && small[k] == big[k]
  }

  /** With no negative guest counts, dropping rows never raises a slot's
      occupancy. */
  lemma {:induction false} OccupancySubTable(small: map<BookingId, Booking>, big: map<BookingId, Booking>, s: Slot)
    requires SubTable(small, big)
    requires forall k | k in big :: big[k].guests >= 0
    ensures Occupancy(small, s, None) <= Occupancy(big, s, None)
    decreases big.Keys
  {
    if big.Keys == {} {
      assert forall k | k in small :: k in big.Keys;
      assert small.Keys == {};
    } else {
      var k := MinKey(big.Keys);
      OccupancyRemove(big, k, s, None);
      if k in small {
        OccupancyRemove(small, k, s, None);
        OccupancySubTable(small - {k}, big - {k}, s);
      } else {
        assert small - {k} == small;
        OccupancySubTable(small, big - {k}, s);
      }
    }
  }

  /** Without an exclusion, every booking of the slot is counted in full:
      the sum is its guests plus the sum of the other rows, hence at least
      its guests. */
  lemma EveryBookingCounts(bs: map<BookingId, Booking>, k: BookingId)
    requires k in bs
    requires forall j | j in bs :: bs[j].guests >= 0
    ensures Occupancy(bs, bs[k].SlotOf(), None) == bs[k].guests + Occupancy(bs - {k}, bs[k].SlotOf(), None)
    ensures bs[k].guests <= Occupancy(bs, bs[k].SlotOf(), None)
  {
    var s := bs[k].SlotOf();
    OccupancyRemove(bs, k, s, None);
    OccupancySubTable(map[], bs - {k}, s);
    assert Occupancy(map[], s, None) == 0;
  }

  /** The invariant the booking path is designed to keep: in every slot of
      an existing table, the guests booked fit the table's capacity. */
  ghost predicate WithinCapacity(db: Db) {
    forall s: Slot | s.table in db.tables :: Occupancy(db.bookings, s, None) <= db.tables[s.table].capacity
  }
}

=== FILE: text.dfy ===
/** The parts of Python's string and integer built-ins that the form helpers
    rely on: `str.strip()`, `str.split(sep)`, `int(str)` and the zero-padded
    `{n:0Wd}` format. Strings are sequences of code points, as in Python 3. */
module Text {
  import opened Wrappers

  /** Python's `str.isspace()`: the ASCII separators and the Unicode
      whitespace code points. */
  predicate IsSpace(c: char) {
    || ('\t' <= c <= '\r')
    || ('\U{1C}' <= c <= ' ')
    || c == '\U{85}' || c == '\U{A0}' || c == '\U{1680}'
    || ('\U{2000}' <= c <= '\U{200A}')
    || c == '\U{2028}' || c == '\U{2029}' || c == '\U{202F}' || c == '\U{205F}' || c == '\U{3000}'
  }

  /** A string that `strip()` turns into the empty string. */
  predicate IsBlank(s: string) {
    forall i | 0 <= i < |s| :: IsSpace(s[i])
  }

  /** Python's `str.lstrip()`. */
  function TrimLeft(s: string): (r: string)
    ensures |r| <= |s| && r == s[|s| - |r|..]
    ensures forall i | 0 <= i < |s| - |r| :: IsSpace(s[i])
    ensures r != [] ==> !IsSpace(r[0])
  {
    if s != [] && IsSpace(s[0]) then TrimLeft(s[1..]) else s
  }

  /** Python's `str.rstrip()`. */
  function TrimRight(s: string): (r: string)
    ensures |r| <= |s| && r == s[..|r|]
    ensures forall i | |r| <= i < |s| :: IsSpace(s[i])
    ensures r != [] ==> !IsSpace(r[|r| - 1])
  {
    if s != [] && IsSpace(s[|s| - 1]) then TrimRight(s[..|s| - 1]) else s
  }

  /** Python's `str.strip()`: the result is the input with a blank prefix
      and a blank suffix cut off; it is empty exactly for blank input, and
      otherwise neither starts nor ends with whitespace. */
  function Strip(s: string): (r: string)
    ensures |r| <= |s|
    ensures exists i, j | 0 <= i <= j <= |s| :: r == s[i..j] && IsBlank(s[..i]) && IsBlank(s[j..])
    ensures r == [] <==> IsBlank(s)
    ensures r != [] ==> !IsSpace(r[0]) && !IsSpace(r[|r| - 1])
  {
    var t := TrimLeft(s);
    var r := TrimRight(t);
    assert r != [] ==> r[0] == t[0];
    assert r == [] ==> t == [];
    assert t != [] ==> t[0] == s[|s| - |t|];
    SliceBetweenBlanks(s, t, r);
    r
  }

  /** A prefix cut that drops only whitespace, followed by a suffix cut that
      drops only whitespace, leaves a slice between two blank pieces. */
  lemma SliceBetweenBlanks(s: string, t: string, r: string)
    requires |t| <= |s| && t == s[|s| - |t|..]
    requires forall k | 0 <= k < |s| - |t| :: IsSpace(s[k])
    requires |r| <= |t| && r == t[..|r|]
    requires forall k | |r| <= k < |t| :: IsSpace(t[k])
    ensures var i, j := |s| - |t|, |s| - |t| + |r|;
            r == s[i..j] && IsBlank(s[..i]) && IsBlank(s[j..])
  {
    var i, j := |s| - |t|, |s| - |t| + |r|;
    forall k | 0 <= k < i ensures IsSpace(s[..i][k]) {
      assert s[..i][k] == s[k];
    }
    forall k | 0 <= k < |s| - j ensures IsSpace(s[j..][k]) {
      assert s[j..][k] == t[|r| + k];
    }
  }

  /** A string with no surrounding whitespace is left alone by `strip()`. */
  lemma StripClean(s: string)
    requires s != [] ==> !IsSpace(s[0]) && !IsSpace(s[|s| - 1])
    ensures Strip(s) == s
  {
  }

  /** `strip()` is idempotent. */
  lemma StripIdempotent(s: string)
    ensures Strip(Strip(s)) == Strip(s)
  {
    StripClean(Strip(s));
  }

  /** The inverse of `split`: Python's `sep.join(parts)`. */
  function Join(parts: seq<string>, sep: char): (s: string)
    requires |parts| >= 1
    decreases |parts|
  {
    if |parts| == 1 then parts[0] else parts[0] + [sep] + Join(parts[1..], sep)
  }

  /** Python's `s.split(sep)` with a one-character separator: always at least
      one part, no part contains the separator, and joining the parts back
      gives the input. */
  function Split(s: string, sep: char): (parts: seq<string>)
    ensures |parts| >= 1
    ensures forall i | 0 <= i < |parts| :: sep !in parts[i]
    ensures Join(parts, sep) == s
    decreases |s|
  {
    if s == [] then [[]]
    else
      var rest := Split(s[1..], sep);
      if s[0] == sep then
        assert ([[]] + rest)[1..] == rest;
        [[]] + rest
      else
        var parts := [[s[0]] + rest[0]] + rest[1..];
        assert parts[1..] == rest[1..];
        assert s == [s[0]] + s[1..];
        parts
  }

  /** Splitting a string free of the separator yields that string alone. */
  lemma {:induction false} SplitNoSep(a: string, sep: char)
    requires sep !in a
    ensures Split(a, sep) == [a]
    decreases |a|
  {
    if a != [] {
      SplitNoSep(a[1..], sep);
      assert a == [a[0]] + a[1..];
    }
  }

  /** A leading separator-free field is split off as the first part. */
  lemma {:induction false} SplitField(a: string, b: string, sep: char)
    requires sep !in a
    ensures Split(a + [sep] + b, sep) == [a] + Split(b, sep)
    decreases |a|
  {
    var s := a + [sep] + b;
    if a == [] {
      assert s[1..] == b;
    } else {
      assert s[1..] == a[1..] + [sep] + b;
      SplitField(a[1..], b, sep);
      assert a == [a[0]] + a[1..];
    }
  }

  /** `split` inverts `join` whenever no part contains the separator. */
  lemma {:induction false} SplitJoin(parts: seq<string>, sep: char)
    requires |parts| >= 1
    requires forall i | 0 <= i < |parts| :: sep !in parts[i]
    ensures Split(Join(parts, sep), sep) == parts
    decreases |parts|
  {
    if |parts| == 1 {
      SplitNoSep(parts[0], sep);
    } else {
      SplitJoin(parts[1..], sep);
      SplitField(parts[0], Join(parts[1..], sep), sep);
      assert parts == [parts[0]] + parts[1..];
    }
  }

  /** Three pieces free of the separator: their join, and its split back
      into the same three pieces. */
  lemma SplitThree(a: string, b: string, c: string, sep: char)
    requires sep !in a && sep !in b && sep !in c
    ensures Join([a, b, c], sep) == a + [sep] + b + [sep] + c
    ensures Split(a + [sep] + b + [sep] + c, sep) == [a, b, c]
  {
    var parts := [a, b, c];
    assert Join(parts[2..], sep) == c;
    assert Join(parts, sep) == a + [sep] + b + [sep] + c;
    SplitJoin(parts, sep);
  }

  predicate IsDigit(c: char) {
    '0' <= c <= '9'
  }

  /** Every character is an ASCII decimal digit (the empty string qualifies). */
  predicate AllDigits(s: string) {
    forall i | 0 <= i < |s| :: IsDigit(s[i])
  }

  /** A non-empty run of ASCII decimal digits. */
  predicate IsDigits(s: string) {
    |s| > 0 && AllDigits(s)
  }

  function DigitValue(c: char): nat
    requires IsDigit(c)
  {
    c as int - '0' as int
  }

  function DigitChar(d: nat): (c: char)
    requires d < 10
    ensures IsDigit(c) && DigitValue(c) == d
  {
    ('0' as int + d) as char
  }

  /** The base-10 value of a string of digits, leading zeros allowed. */
  function DigitsValue(s: string): nat
    requires AllDigits(s)
    decreases |s|
  {
    if s == [] then 0 else DigitsValue(s[..|s| - 1]) * 10 + DigitValue(s[|s| - 1])
  }

  /** A leading zero does not change the value of a digit string. */
  lemma {:induction false} DigitsValueLeadingZero(t: string)
    requires AllDigits(t)
    ensures DigitsValue(['0'] + t) == DigitsValue(t)
    decreases |t|
  {
    if t != [] {
      var u := ['0'] + t;
      assert u[..|u| - 1] == ['0'] + t[..|t| - 1];
      DigitsValueLeadingZero(t[..|t| - 1]);
    }
  }

  /** Shortest decimal text of a natural number: Python's `str(n)`. */
  function ShowNat(n: nat): (r: string)
    ensures IsDigits(r)
    ensures DigitsValue(r) == n
    ensures r[0] == '0' ==> n == 0
    decreases n
  {
    if n < 10 then [DigitChar(n)]
    else
      var r := ShowNat(n / 10) + [DigitChar(n % 10)];
      assert r[..|r| - 1] == ShowNat(n / 10);
      r
  }

  function Pow10(k: nat): (p: nat)
    ensures p >= 1
  {
    if k == 0 then 1 else 10 * Pow10(k - 1)
  }

  /** A number below 10^k has at most k decimal digits. */
  lemma {:induction false} ShowNatLength(n: nat, k: nat)
    requires 1 <= k && n < Pow10(k)
    ensures |ShowNat(n)| <= k
    decreases n
  {
    if n >= 10 {
      ShowNatLength(n / 10, k - 1);
    }
  }

  function Zeros(k: nat): (z: string)
    ensures |z| == k && AllDigits(z)
    ensures forall i | 0 <= i < k :: z[i] == '0'
  {
    seq(k, _ => '0')
  }

  lemma {:induction false} DigitsValueZeros(k: nat, t: string)
    requires AllDigits(t)
    ensures AllDigits(Zeros(k) + t)
    ensures DigitsValue(Zeros(k) + t) == DigitsValue(t)
    decreases k
  {
    if k > 0 {
      assert Zeros(k) + t == ['0'] + (Zeros(k - 1) + t);
      DigitsValueZeros(k - 1, t);
      DigitsValueLeadingZero(Zeros(k - 1) + t);
      assert DigitsValue(Zeros(k) + t) == DigitsValue(['0'] + (Zeros(k - 1) + t));
    } else {
      assert Zeros(k) + t == t;
    }
  }

  /** Python's `f"{n:0{width}d}"` for a non-negative `n`: the decimal digits
      of `n`, left-padded with zeros up to `width` characters. */
  function ZeroPad(n: nat, width: nat): (r: string)
    ensures IsDigits(r)
    ensures DigitsValue(r) == n
    ensures |r| >= width
    ensures 1 <= width && n < Pow10(width) ==> |r| == width
  {
    var digits := ShowNat(n);
    if |digits| >= width then
      assert 1 <= width && n < Pow10(width) ==> |digits| <= width by {
        if 1 <= width && n < Pow10(width) { ShowNatLength(n, width); }
      }
      digits
    else
      DigitsValueZeros(width - |digits|, digits);
      Zeros(width - |digits|) + digits
  }

  /** The literals Python's `int()` accepts once surrounding whitespace is
      stripped, restricted to ASCII digits: an optional sign, then digits. */
  predicate IsIntLiteral(t: string) {
    || IsDigits(t)
    || (|t| > 1 && (t[0] == '+' || t[0] == '-') && IsDigits(t[1..]))
  }

  /** Python's `int(s)` on a `str`: `None` stands for the `ValueError` it
      raises. Surrounding whitespace is ignored; a `-` sign negates. */
  function ParseInt(s: string): (r: Option<int>)
    ensures r.Some? <==> IsIntLiteral(Strip(s))
    ensures IsBlank(s) ==> r == None
    ensures IsDigits(Strip(s)) ==> r == Some(DigitsValue(Strip(s)))
    ensures r.Some? && Strip(s)[0] in {'+', '-'} ==>
              r.value == (if Strip(s)[0] == '-' then -1 else 1) * DigitsValue(Strip(s)[1..])
  {
    var t := Strip(s);
    if t != [] && (t[0] == '+' || t[0] == '-') then
      if IsDigits(t[1..]) then
        var magnitude: int := DigitsValue(t[1..]);
        Some(if t[0] == '-' then -magnitude else magnitude)
      else None
    else if IsDigits(t) then Some(DigitsValue(t))
    else None
  }

  /** Python's `str(n)` for an integer. */
  function ShowInt(n: int): string {
    if n < 0 then "-" + ShowNat(-n) else ShowNat(n)
  }

  /** `int()` reads back what `str()` writes, for every integer. */
  lemma ParseShowInt(n: int)
    ensures ParseInt(ShowInt(n)) == Some(n)
  {
    var s := ShowInt(n);
    StripClean(s);
    if n < 0 {
      assert s[1..] == ShowNat(-n);
      assert !IsDigits(s);
    }
  }

  /** `int()` reads a zero-padded field back as the number that was padded. */
  lemma ParseZeroPad(n: nat, width: nat)
    ensures ParseInt(ZeroPad(n, width)) == Some(n)
  {
    StripClean(ZeroPad(n, width));
  }
}

=== FILE: wrappers.dfy ===
/** Optional values and success/failure results, standing in for Python's
    `None` and for raised exceptions. */
module Wrappers {

  /** A value that may be absent (Python `None`). */
  datatype Option<+T> = None | Some(value: T)

  /** The outcome of an operation that either returns a value or raises. */
  datatype Result<+T, +E> = Ok(value: T) | Err(error: E)
}
